=== FILE: README.md ===
# Multi-agent task scheduler — a Dafny model

This project models the scheduling core of a browser simulation of worker
agents (`taller_sma/script.js`). Agents with skills and a speed claim, work
on and complete tasks over discrete ticks. One tick (`agentCycle`) visits
the agents in array order, and each agent takes exactly one branch:

- a **resting** agent counts its rest down;
- a **free** agent acquires a task through a five-step waterfall:
  1. rescue an abandoned task that is at least 75% done;
  2. take a big pending task (more than 150 units);
  3. resume any abandoned task;
  4. take the best skill-matched pending task by priority, then size;
  5. Fullstack agents only: take the best pending task of any skill;
- a **busy** agent adds its speed to its task's progress. On completion,
  progress is overwritten with 100, the agent is freed, and its completion
  count goes up. On the third completion the agent rests for five ticks
  instead. A busy agent whose task id matches no task is freed.

Around the tick, the model covers:

- the state normalisation of `initSimulation`;
- reset, which re-populates from the seed without rewinding the id counters;
- adding an agent or a task with a fresh `A<n>` / `T<n>` id;
- `setInitialIds`, which seeds the counters from the largest id suffix in
  the seed data.

Layout, one module per file:

| file | module | contents |
|---|---|---|
| wrappers.dfy | `Wrappers` | `Option`, for the nullable `currentTaskId` / `assignedTo` and for "not found" |
| model.dfy | `Model` | `Agent`, `Task`, statuses, `Priority`, the constants 3 / 5 / 100 / 150 / "Fullstack", log events |
| ordering.dfy | `Ordering` | the priority/size comparator, the stable sort of candidates, and the best-pick reference definition |
| waterfall.dfy | `Waterfall` | the five candidate filters, `Choose`, and the waterfall specification with its determinacy |
| engine.dfy | `Engine` | `Rest`, `Acquire`, `Work`, `StepAgent`, and `Tick` as a left fold over the agents that threads the tasks through |
| steps.dfy | `Steps` | the effect of each branch of one agent's turn |
| invariants.dfy | `Invariants` | the population consistency that a tick preserves |
| ids.dfy | `Ids` | decimal ids, the counters, `setInitialIds` |
| simulation.dfy | `Simulation` | seed data, load, reset, add agent, add task, step, and the state invariant |
| scenarios.dfy | `Scenarios` | small concrete runs |

Modelling choices:

- The float test `t.progress >= t.totalWork * 0.75` is modelled as
  `4 * progress >= 3 * totalWork`. This is exact for the integer values the
  program stores.
- `Array.prototype.sort` is stable. The sorted branches are therefore
  modelled by a stable insertion sort of candidate indices, taking the head.
  `Ordering.SortedHeadIsBest` proves that the head is the task with the
  highest priority, then the least work, then the earliest position.
- `agent.status === BUSY && agent.currentTaskId` also tests that the id is
  truthy. `Engine.HoldsTask` therefore also rejects the empty string.
- The model follows the code where a quick reading of it misleads:
  - rest ends when the decremented count is `<= 0`, not only when it is 0;
  - on completion, progress is set to 100 even when `totalWork` is not 100;
  - `assignedTo` is not cleared on completion;
  - a pending task over 150 units is taken by the big-task branch before
    the priority sort is consulted.

## Model

| member | source | states |
|---|---|---|
| Model.Rank | taller_sma/script.js:234 | the priority table maps High, Medium, Low into 3..1, High alone to 3 and Low alone to 1 |
| Ordering.Compare | taller_sma/script.js:233-238 | the comparator is negative exactly when the first task has higher priority, or equal priority and less work; positive exactly in the mirror case; zero exactly on equal priority and size |
| Ordering.Insert | taller_sma/script.js:233-238 | inserting into a sorted candidate list gives a sorted permutation of the list plus the new index |
| Ordering.SortIndices | taller_sma/script.js:233-238 | the sort returns a permutation of the candidates in which no later element sorts strictly before an earlier one |
| Ordering.BestPos | taller_sma/script.js:240-241 | reference pick: no candidate sorts strictly before it, and it sorts strictly before every earlier candidate, so ties go to the earliest |
| Ordering.SortedHeadIsBest | taller_sma/script.js:233-241 | the head of the stably sorted candidates is exactly the reference pick |
| Waterfall.Candidate | taller_sma/script.js:174-179 | no filter admits a completed task; every filter but the Fullstack one demands a skill match; rescue and resume admit only abandoned tasks, the others only pending ones; rescue needs 75% done and the big-task filter more than 150 units (the five filters are at lines 174-179, 191-195, 212-216, 228-231 and 252) |
| Waterfall.FirstCandidate | taller_sma/script.js:174-182 | returns the first index in array order satisfying the branch's filter, and none exactly when no task satisfies it |
| Waterfall.CandidateIndices | taller_sma/script.js:228-231 | yields, in increasing order, every index whose task satisfies the filter, and only such indices |
| Waterfall.BestCandidate | taller_sma/script.js:228-247 | the filter-sort-head pick is a candidate of maximal priority, minimal work among those, earliest among exact ties; none exactly when the filter is empty |
| Waterfall.TryBranch | taller_sma/script.js:250-262 | a branch yields nothing exactly when it is not tried (the Fullstack gate) or its filter is empty; otherwise it yields its first or best candidate |
| Waterfall.Choose | taller_sma/script.js:173-270 | the pick comes from the first of the five branches whose filter is non-empty: first match in branches 1-3, comparator-best in 4-5; there is no pick exactly when every branch is empty |
| Waterfall.WaterfallDeterminate | taller_sma/script.js:173-270 | the waterfall specification admits at most one pick, so it pins down the acquisition completely |
| Engine.FindTask | taller_sma/script.js:277 | finds the first task with the held id, or reports that none has it |
| Engine.Rest | taller_sma/script.js:155-162 | the rest count drops by one; the agent is freed, with one log entry, exactly when the count was at most 1, and stays resting otherwise; nothing else about the agent and no task changes |
| Engine.Claim | taller_sma/script.js:181-268 | a claimed task is owned by the claimer and keeps its identity fields and progress; rescue and resume keep its status, the other branches set it in progress (lines 183, 199-200, 220, 242-243, 263-264) |
| Engine.HoldsTask | taller_sma/script.js:276 | the busy guard holds only for a present task id, and an empty id is falsy, so it never holds for one |
| Engine.Acquire | taller_sma/script.js:181-268 | acquisition changes at most one task, changes no task's progress, and never moves a task backwards in its lifecycle |
| Engine.Work | taller_sma/script.js:276-300 | work changes at most one task and loses no progress on an unfinished task; a busy agent never ends the turn holding a different task |
| Engine.StepAgent | taller_sma/script.js:150-301 | one turn keeps the agent's identity; a resting agent touches no task; an acquiring agent advances no task; a working agent acquires no new task |
| Engine.Tick | taller_sma/script.js:149-302 | a tick keeps every agent's and task's identity fields; no task status moves backwards; with non-negative speeds, no unfinished task loses progress |
| Engine.TickSplits | taller_sma/script.js:150 | agents act strictly in array order: ticking `xs + ys` is ticking `xs`, then ticking `ys` on the tasks that `xs` left |
| Steps.RestingStep | taller_sma/script.js:155-162 | a resting agent's count drops by exactly one; it becomes free exactly when the count was at most 1; no task changes |
| Steps.AcquisitionEffect | taller_sma/script.js:181-268 | the free agent takes the task the waterfall specification designates: it becomes busy holding that id; the task is owned by it, in progress, with unchanged progress, and has left every filter for every agent; no other task changes |
| Steps.WorkOnTask | taller_sma/script.js:276-296 | progress grows by exactly the speed; on reaching totalWork the task is completed at 100 with its owner kept, and the agent is freed with one more completion and exactly one log entry, or on the third it rests 5 ticks with the count reset and exactly two entries |
| Steps.DanglingReference | taller_sma/script.js:297-300 | a busy agent whose id names no task is freed and nothing else changes |
| Steps.IdleBusy | taller_sma/script.js:276 | a busy agent without a truthy task id does nothing |
| Invariants.ClaimPreserves | taller_sma/script.js:181-268 | claiming a candidate keeps the population consistent: nobody held it before, and afterwards exactly the claimer does |
| Invariants.StepPreserves | taller_sma/script.js:150-301 | every branch of one agent's turn keeps the population consistent |
| Invariants.TickPreservesConsistency | taller_sma/script.js:149-302 | across a whole tick: busy iff holding an id, no id held twice, every held task in progress and owned, unique task ids, completed tasks at 100 |
| Invariants.CompletedTasksFrozen | taller_sma/script.js:276-283 | in a consistent population, a tick never touches a completed task again |
| Invariants.TickKeepsHeldIdsKnown | taller_sma/script.js:184-300 | a tick keeps the task ids, and never leaves an agent holding an id that names no task |
| Ids.Decimal | taller_sma/script.js:311 | the decimal rendering of a counter is a non-empty string of digits with no leading zero; zero renders as `0` |
| Ids.ParseDecimal | taller_sma/script.js:311 | reading back the decimal rendering of a counter gives the counter |
| Ids.DecimalOfParse | taller_sma/script.js:311 | conversely, every digit string without a leading zero is the rendering of its own value, so the rendering is the unique canonical spelling |
| Ids.SuffixOfFormat | taller_sma/script.js:428 | the suffix parsed from a generated id is the counter value it was made from |
| Ids.FormatInjective | taller_sma/script.js:310-312 | two generated ids are equal exactly when their counter values are |
| Ids.NextAgentId | taller_sma/script.js:308-312 | the counter goes up by one, and the issued id is exactly `A` followed by the canonical decimal of the new counter, so its suffix reads back as that counter |
| Ids.NextTaskId | taller_sma/script.js:344-348 | the counter goes up by one, and the issued id is exactly `T` followed by the canonical decimal of the new counter, so its suffix reads back as that counter |
| Ids.IssueTaskIds | taller_sma/script.js:344-348 | successive task ids have strictly increasing suffixes above the starting counter and are pairwise distinct |
| Ids.MaxSuffix | taller_sma/script.js:428 | the result bounds every seed suffix and is attained by one of them |
| Ids.SetInitialIds | taller_sma/script.js:426-433 | each counter becomes the largest seed suffix of its kind, or stays unchanged when there are no seeds of that kind |
| Simulation.Populate | taller_sma/script.js:51-66 | one free, idle agent per seed agent, keeping its id, name and speed, with a single skill wrapped into a list; one pending, unowned task per seed task, keeping its id, name, skill, progress, size and priority |
| Simulation.SkillList | taller_sma/script.js:55 | a single seed skill becomes a one-element list; a seed array of skills is kept as it is |
| Simulation.PopulateConsistent | taller_sma/script.js:51-66 | a freshly initialised population is consistent when the seed's task ids are distinct |
| Simulation.Load | taller_sma/script.js:41-46 | after loading, each counter is exactly the largest seed suffix of its kind (bounding every seed suffix and attained by one), or 0 when there are no seeds of that kind; the population is the normalised seed |
| Simulation.Reset | taller_sma/script.js:72-79 | reset repopulates from the seed and leaves the counters untouched |
| Simulation.AddAgent | taller_sma/script.js:314-338 | appends one free, idle agent with the given name, skills and speed and zero rest and completion counts, whose id is `A` followed by the canonical rendering of the bumped agent counter; the population, tasks, seed and task counter are unchanged |
| Simulation.AddTask | taller_sma/script.js:350-367 | appends one pending, unowned task at progress 0 with the given name, skill, size and priority, whose id is `T` followed by the canonical rendering of the bumped task counter; agents, earlier tasks, seed and agent counter are unchanged |
| Simulation.Step | taller_sma/script.js:149-305 | a timer firing runs one `agentCycle`: population and events are those of `Engine.Tick`; it never issues ids or touches the seed, so counters, seed, agent ids and task ids are unchanged |
| Simulation.LoadValid | taller_sma/script.js:41-46 | loading a seed with distinct, well-formed ids gives a valid state |
| Simulation.ResetValid | taller_sma/script.js:72-79 | reset keeps the state valid: the counters, never rewound, are still at or above every seed suffix, so the next issued id exceeds them |
| Simulation.AddAgentValid | taller_sma/script.js:327-338 | the new agent id differs from every current and every seed agent id, and validity is kept |
| Simulation.AddTaskValid | taller_sma/script.js:356-367 | the new task id differs from every current and every seed task id, so task ids stay unique |
| Simulation.StepValid | taller_sma/script.js:149-305 | a tick keeps the state valid |
| Scenarios.FirstTickClaims | taller_sma/script.js:240-247 | a single agent's first tick on a matching pending task only claims it |
| Scenarios.LaterTicksWork | taller_sma/script.js:279-287 | speed 10 on 25 units: progress 10, then 20, then completed at 100 with the agent free |
| Scenarios.PriorityBeforeSize | taller_sma/script.js:233-238 | a High task of 150 units is taken before a Low task of 50 |
| Scenarios.RescueFirst | taller_sma/script.js:174-187 | an abandoned task at 80 of 100 is rescued ahead of a High pending task |
| Scenarios.ThirdCompletionRests | taller_sma/script.js:290-295 | the third completion leaves the agent resting 5 ticks with its count at 0 |
| Scenarios.FullstackFallback | taller_sma/script.js:251-268 | a Fullstack agent with no matching task takes the best pending task of any skill |

## Left out

- DOM rendering, per-status counting and the progress bars (`renderAgents`, `renderTasks`, `updateUI`): presentation only.
- Loading `data.json` with `fetch`: asynchronous I/O. The seed is a parameter of `Simulation.Load`. After a failed load the start button still ticks the empty arrays, but neither the population nor the counters is ever initialised; that state is not modelled.
- `startSimulation`, `pauseSimulation`, `updateSimulationSpeed` and the button listeners: timer scheduling and button state. The float speed factor is display only. `Simulation.Step` is one timer firing.
- `logAction`: the events of a tick are an ordered output sequence of (actor, message) pairs. Timestamps, HTML and the 50-entry cap are not modelled.
- Simulation.AddAgent, Simulation.AddTask: the `Sistema` log entries of the add operations (lines 340 and 369), like those of start and pause, are not modelled; only the tick's events are.
- The random draws of `addRandomAgent` / `addRandomTask`: name, skills, speed, size and priority are parameters.
- Simulation.Load: requires seed ids of the form `A<digits>` / `T<digits>`. The `parseInt` behaviour on other strings (NaN, trailing junk) and the `|| 0` fallback for NaN are not modelled.
- Priorities outside High / Medium / Low: `Priority` is an enumeration. A missing `priorityOrder` entry would make the comparator NaN.
- Seed tasks must carry an integer `progress`. `initSimulation` does not set it, and a missing value would make `task.progress += speed` NaN.
- Engine.Tick: the progress-monotonicity clause assumes non-negative speeds. The code never checks speed, and the random speeds are 5 to 15.
- Invariants.TickPreservesConsistency: besides "busy iff holding an id" and "no id held twice / held tasks in progress and owned", the precondition also asks for unique task ids. With duplicate ids, `tasks.find` and the claims can refer to different tasks. It also asks for rest counts and completion counts in range, and completed tasks at 100. All of these hold after `initSimulation` on a seed whose task ids are distinct (`initSimulation` copies the seed ids unchanged, so `Simulation.PopulateConsistent` needs that), and the tick preserves them.
- Ids.NextAgentId, Ids.NextTaskId, Ids.IssueTaskIds: the counters are unbounded integers. In the program they are double-precision numbers, so from 2^53 on `++` no longer increases them and the same id is issued again, and from 10^21 on the template literal renders them in exponent form; counters are assumed below 2^53.
- Ids.SetInitialIds: seed suffixes are assumed below 2^53; above it `parseInt` rounds them, and the maximum may then not be the seed's own suffix.
- Simulation.AddAgentValid, Simulation.AddTaskValid: the freshness of new ids holds only while the counters stay below 2^53, for the reason above.

=== FILE: engine.dfy ===
/** One tick of the simulation (`agentCycle`): every agent, in array order,
    takes exactly one of three branches — count down its rest, acquire a task
    through the waterfall, or advance the task it holds — and the task
    sequence produced by one agent is the one the next agent sees. */
module Engine {
  import opened Wrappers
  import opened Model
  import opened Waterfall

  /** What one agent's turn produces: its new state, the tasks as the next
      agent will see them, and the events it logged, in order. */
  datatype StepResult = StepResult(agent: Agent, tasks: seq<Task>, events: seq<Event>)

  /** What a whole tick produces. */
  datatype TickResult = TickResult(agents: seq<Agent>, tasks: seq<Task>, events: seq<Event>)

  /** The fields of a task no tick ever writes. */
  predicate SameTask(t: Task, u: Task)
  {
    && t.id == u.id && t.name == u.name && t.skillRequired == u.skillRequired
    && t.totalWork == u.totalWork && t.priority == u.priority
  }

  /** The fields of an agent no tick ever writes. */
  predicate SameAgent(a: Agent, b: Agent)
  {
    a.id == b.id && a.name == b.name && a.skills == b.skills && a.speed == b.speed
  }

  /** Lifecycle order of task states; no tick moves a task backwards. */
  function StatusRank(s: TaskStatus): (n: nat)
  {
    match s
    case Pending => 0
    case InProgress => 1
    case Completed => 2
  }

  /** `agent.status === BUSY && agent.currentTaskId`: the id must be present
      and, being a string, non-empty to be truthy. */
  predicate HoldsTask(a: Agent): (b: bool)
    ensures b ==> a.currentTaskId.Some?
    ensures a.currentTaskId == Some("") ==> !b
  {
    a.currentTaskId.Some? && a.currentTaskId.value != ""
  }

  /** `after` is `before` with only the fields a tick may write changed,
      and no task moved backwards in its lifecycle. */
  predicate TasksEvolve(before: seq<Task>, after: seq<Task>)
  {
    && |after| == |before|
    && forall k :: 0 <= k < |before| ==>
         SameTask(before[k], after[k]) && StatusRank(before[k].status) <= StatusRank(after[k].status)
  }

  /** No task that is not completed has lost progress. */
  predicate ProgressKept(before: seq<Task>, after: seq<Task>)
    requires |after| == |before|
  {
    forall k :: 0 <= k < |before| && after[k].status != Completed ==> before[k].progress <= after[k].progress
  }

  /** At most one task differs between `before` and `after`. */
  predicate AtMostOneChanged(before: seq<Task>, after: seq<Task>)
    requires |after| == |before|
  {
    forall k, k' :: 0 <= k < k' < |before| && after[k] != before[k] ==> after[k'] == before[k']
  }

  lemma EvolveTransitive(t1: seq<Task>, t2: seq<Task>, t3: seq<Task>)
    requires TasksEvolve(t1, t2) && TasksEvolve(t2, t3)
    ensures TasksEvolve(t1, t3)
    ensures ProgressKept(t1, t2) && ProgressKept(t2, t3) ==> ProgressKept(t1, t3)
  {
  }

  // ---------------------------------------------------------------------
  // Branch 1: resting
  // ---------------------------------------------------------------------

  /** A resting agent's turn: one cycle less; free once the count is used up. */
  function Rest(a: Agent, ts: seq<Task>): (r: StepResult)
    requires a.status == Resting
    ensures r.tasks == ts
    ensures r.agent == a.(restCycles := a.restCycles - 1, status := r.agent.status)
    ensures r.agent.status == Free <==> a.restCycles <= 1
    ensures r.agent.status != Free ==> r.agent.status == Resting
    ensures r.events == (if r.agent.status == Free then [Event(a.name, FinishedResting)] else [])
  {
    var left := a.restCycles - 1;
    if left <= 0 then
      StepResult(a.(restCycles := left, status := Free), ts, [Event(a.name, FinishedResting)])
    else
      StepResult(a.(restCycles := left), ts, [])
  }

  // ---------------------------------------------------------------------
  // Branch 2: acquisition
  // ---------------------------------------------------------------------

  /** What acquiring does to the task: the two branches that take an
      abandoned task only set the owner; the others also start the task. */
  function Claim(t: Task, b: Branch, owner: string): (r: Task)
    ensures SameTask(t, r) && r.progress == t.progress
    ensures r.assignedTo == Some(owner)
    ensures b == Rescue || b == Resume ==> r.status == t.status
    ensures b != Rescue && b != Resume ==> r.status == InProgress
  {
    if b == Rescue || b == Resume then t.(assignedTo := Some(owner))
    else t.(status := InProgress, assignedTo := Some(owner))
  }

  function Acquire(a: Agent, ts: seq<Task>): (r: StepResult)
    requires a.status == Free
    ensures TasksEvolve(ts, r.tasks) && AtMostOneChanged(ts, r.tasks)
    ensures forall k :: 0 <= k < |ts| ==> r.tasks[k].progress == ts[k].progress
  {
    match Choose(a, ts)
    case None => StepResult(a, ts, [])
    case Some(Pick(b, i)) =>
      StepResult(
        a.(currentTaskId := Some(ts[i].id), status := Busy),
        ts[i := Claim(ts[i], b, a.name)],
        [Event(a.name, AcquireMessage(b, ts[i].name))])
  }

  // ---------------------------------------------------------------------
  // Branch 3: work
  // ---------------------------------------------------------------------

  /** `tasks.find(t => t.id === id)`, as an index. */
  function FindTask(ts: seq<Task>, id: string): (r: Option<nat>)
    ensures r.Some? ==> r.value < |ts| && ts[r.value].id == id
    ensures r.Some? ==> forall k :: 0 <= k < r.value ==> ts[k].id != id
    ensures r.None? <==> forall k :: 0 <= k < |ts| ==> ts[k].id != id
    decreases |ts|
  {
    if ts == [] then None
    else if ts[0].id == id then Some(0)
    else match FindTask(ts[1..], id)
      case None => None
      case Some(k) => Some(k + 1)
  }

  function Work(a: Agent, ts: seq<Task>): (r: StepResult)
    requires a.status == Busy
    ensures TasksEvolve(ts, r.tasks) && AtMostOneChanged(ts, r.tasks)
    ensures a.speed >= 0 ==> ProgressKept(ts, r.tasks)
    ensures r.agent.status != Busy || r.agent.currentTaskId == a.currentTaskId
  {
    if !HoldsTask(a) then StepResult(a, ts, [])
    else match FindTask(ts, a.currentTaskId.value)
      case None =>
        StepResult(a.(status := Free, currentTaskId := None), ts, [])
      case Some(i) =>
        var t := ts[i];
        var progress := t.progress + a.speed;
        if progress < t.totalWork then
          StepResult(a, ts[i := t.(progress := progress)], [])
        else
          var done := t.(progress := CompletedProgress, status := Completed);
          var completed := Event(a.name, CompletedTask(t.name));
          var count := a.tasksCompleted + 1;
          if count >= FatigueThreshold then
            StepResult(
              a.(status := Resting, currentTaskId := None, restCycles := RestDuration, tasksCompleted := 0),
              ts[i := done], [completed, Event(a.name, Fatigued)])
          else
            StepResult(
              a.(status := Free, currentTaskId := None, tasksCompleted := count),
              ts[i := done], [completed])
  }

  // ---------------------------------------------------------------------
  // One agent's turn and the whole tick
  // ---------------------------------------------------------------------

  /** One agent's turn. The three branches are exclusive: a resting agent
      does nothing else, an agent that acquires does no work on the task
      this tick, and an agent that completes a task acquires no other. */
  function StepAgent(a: Agent, ts: seq<Task>): (r: StepResult)
    ensures SameAgent(a, r.agent)
    ensures TasksEvolve(ts, r.tasks) && AtMostOneChanged(ts, r.tasks)
    ensures a.speed >= 0 ==> ProgressKept(ts, r.tasks)
    ensures a.status == Resting ==> r.tasks == ts
    ensures a.status == Free ==> forall k :: 0 <= k < |ts| ==> r.tasks[k].progress == ts[k].progress
    ensures a.status == Busy ==> r.agent.status != Busy || r.agent.currentTaskId == a.currentTaskId
  {
    match a.status
    case Resting => Rest(a, ts)
    case Free => Acquire(a, ts)
    case Busy => Work(a, ts)
  }

  /** `agents.forEach(...)`: a left fold over the agents threading the tasks. */
  function Tick(agents: seq<Agent>, ts: seq<Task>): (r: TickResult)
    ensures |r.agents| == |agents|
    ensures forall j :: 0 <= j < |agents| ==> SameAgent(agents[j], r.agents[j])
    ensures TasksEvolve(ts, r.tasks)
    ensures (forall j :: 0 <= j < |agents| ==> agents[j].speed >= 0) ==> ProgressKept(ts, r.tasks)
    decreases |agents|
  {
    if agents == [] then TickResult([], ts, [])
    else
      var s := StepAgent(agents[0], ts);
      var rest := Tick(agents[1..], s.tasks);
      EvolveTransitive(ts, s.tasks, rest.tasks);
      TickResult([s.agent] + rest.agents, rest.tasks, s.events + rest.events)
  }

  /** Agents act strictly in array order: a tick over `xs + ys` is the tick
      over `xs` followed by the tick over `ys` on the tasks `xs` left. */
  lemma {:induction false} TickSplits(xs: seq<Agent>, ys: seq<Agent>, ts: seq<Task>)
    ensures var first := Tick(xs, ts);
            var second := Tick(ys, first.tasks);
            Tick(xs + ys, ts) == TickResult(first.agents + second.agents, second.tasks, first.events + second.events)
    decreases |xs|
  {
    if xs == [] {
      assert xs + ys == ys;
    } else {
      var s := StepAgent(xs[0], ts);
      assert (xs + ys)[0] == xs[0];
      assert (xs + ys)[1..] == xs[1..] + ys;
      TickSplits(xs[1..], ys, s.tasks);
      var first := Tick(xs[1..], s.tasks);
      var second := Tick(ys, first.tasks);
      assert [s.agent] + (first.agents + second.agents) == ([s.agent] + first.agents) + second.agents;
      assert s.events + (first.events + second.events) == (s.events + first.events) + second.events;
    }
  }
}

=== FILE: ids.dfy ===
/** The run-scoped id counters: ids are a one-letter prefix (`A` for agents,
    `T` for tasks) followed by the decimal value of a counter that is bumped
    before every use, and seeded once from the largest suffix in the initial
    data. */
module Ids {

  predicate IsDigit(c: char)
  {
    '0' <= c <= '9'
  }

  predicate AllDigits(s: string)
  {
    forall k :: 0 <= k < |s| ==> IsDigit(s[k])
  }

  function DigitValue(c: char): (d: nat)
    requires IsDigit(c)
    ensures d < 10
  {
    (c as int) - ('0' as int)
  }

  function DigitChar(d: nat): (c: char)
    requires d < 10
    ensures IsDigit(c) && DigitValue(c) == d
  {
    (('0' as int) + d) as char
  }

  /** Decimal rendering of a number, as a template literal does it. */
  function Decimal(n: nat): (s: string)
    ensures |s| > 0 && AllDigits(s)
    ensures n == 0 ==> s == ['0']
    ensures n > 0 ==> s[0] != '0'
    decreases n
  {
    if n < 10 then [DigitChar(n)] else Decimal(n / 10) + [DigitChar(n % 10)]
  }

  /** `parseInt` of a string of decimal digits. */
  function ParseDigits(s: string): (n: nat)
    requires AllDigits(s)
    decreases |s|
  {
    if s == [] then 0 else ParseDigits(s[..|s| - 1]) * 10 + DigitValue(s[|s| - 1])
  }

  lemma {:induction false} ParseDecimal(n: nat)
    ensures ParseDigits(Decimal(n)) == n
    decreases n
  {
    if n >= 10 {
      var s := Decimal(n);
      assert s[..|s| - 1] == Decimal(n / 10);
      ParseDecimal(n / 10);
    }
  }

  /** A digit string without a leading zero has a positive value. */
  lemma {:induction false} ParsePositive(s: string)
    requires |s| > 0 && AllDigits(s) && s[0] != '0'
    ensures ParseDigits(s) > 0
    decreases |s|
  {
    if |s| > 1 {
      ParsePositive(s[..|s| - 1]);
    }
  }

  /** The converse of `ParseDecimal`: a digit string without a leading zero
      is the rendering of its own value, so the rendering is the only
      canonical spelling of a number. */
  lemma {:induction false} DecimalOfParse(s: string)
    requires |s| > 0 && AllDigits(s) && (|s| == 1 || s[0] != '0')
    ensures Decimal(ParseDigits(s)) == s
    decreases |s|
  {
    var init := s[..|s| - 1];
    if |s| > 1 {
      ParsePositive(init);
      DecimalOfParse(init);
      assert init + [s[|s| - 1]] == s;
    }
  }

  /** A seed id the model accepts: the prefix letter and at least one digit. */
  predicate WellFormedId(prefix: char, id: string)
  {
    |id| >= 2 && id[0] == prefix && AllDigits(id[1..])
  }

  /** `prefix${n}` */
  function FormatId(prefix: char, n: nat): (id: string)
    ensures WellFormedId(prefix, id)
  {
    [prefix] + Decimal(n)
  }

  /** `parseInt(id.substring(1))` on a well-formed id. */
  function Suffix(prefix: char, id: string): (n: nat)
    requires WellFormedId(prefix, id)
  {
    ParseDigits(id[1..])
  }

  /** Formatting then reading back the suffix is the identity. */
  lemma SuffixOfFormat(prefix: char, n: nat)
    ensures Suffix(prefix, FormatId(prefix, n)) == n
  {
    assert FormatId(prefix, n)[1..] == Decimal(n);
    ParseDecimal(n);
  }

  /** Ids with different suffixes are different strings; formatted ids are
      equal exactly when their numbers are. */
  lemma DistinctSuffixes(prefix: char, x: string, y: string)
    requires WellFormedId(prefix, x) && WellFormedId(prefix, y)
    requires Suffix(prefix, x) != Suffix(prefix, y)
    ensures x != y
  {
  }

  lemma FormatInjective(prefix: char, n: nat, m: nat)
    ensures FormatId(prefix, n) == FormatId(prefix, m) <==> n == m
  {
    SuffixOfFormat(prefix, n);
    SuffixOfFormat(prefix, m);
  }

  const AgentPrefix: char := 'A'
  const TaskPrefix: char := 'T'

  /** `nextAgentId` and `nextTaskId`. */
  datatype Counters = Counters(nextAgentId: nat, nextTaskId: nat)

  datatype Issued = Issued(id: string, counters: Counters)

  /** `getNextAgentId`: bump the agent counter, then format it. */
  function NextAgentId(c: Counters): (r: Issued)
    ensures r.counters == c.(nextAgentId := c.nextAgentId + 1)
    ensures WellFormedId(AgentPrefix, r.id) && Suffix(AgentPrefix, r.id) == c.nextAgentId + 1
    ensures r.id == FormatId(AgentPrefix, c.nextAgentId + 1)
  {
    var n := c.nextAgentId + 1;
    SuffixOfFormat(AgentPrefix, n);
    Issued(FormatId(AgentPrefix, n), c.(nextAgentId := n))
  }

  /** `getNextTaskId`: bump the task counter, then format it. */
  function NextTaskId(c: Counters): (r: Issued)
    ensures r.counters == c.(nextTaskId := c.nextTaskId + 1)
    ensures WellFormedId(TaskPrefix, r.id) && Suffix(TaskPrefix, r.id) == c.nextTaskId + 1
    ensures r.id == FormatId(TaskPrefix, c.nextTaskId + 1)
  {
    var n := c.nextTaskId + 1;
    SuffixOfFormat(TaskPrefix, n);
    Issued(FormatId(TaskPrefix, n), c.(nextTaskId := n))
  }

  /** `k` successive task ids have strictly increasing suffixes, all above the
      counter they started from, so they are pairwise distinct. */
  function IssueTaskIds(c: Counters, k: nat): (r: (seq<string>, Counters))
    ensures |r.0| == k && r.1 == c.(nextTaskId := c.nextTaskId + k)
    ensures forall p :: 0 <= p < k ==>
      WellFormedId(TaskPrefix, r.0[p]) && Suffix(TaskPrefix, r.0[p]) == c.nextTaskId + p + 1
    ensures forall p, q :: 0 <= p < q < k ==> r.0[p] != r.0[q]
    decreases k
  {
    if k == 0 then ([], c)
    else
      var first := NextTaskId(c);
      var rest := IssueTaskIds(first.counters, k - 1);
      var ids := [first.id] + rest.0;
      assert forall p :: 0 <= p < k ==> Suffix(TaskPrefix, ids[p]) == c.nextTaskId + p + 1;
      (ids, rest.1)
  }

  predicate AllWellFormed(prefix: char, ids: seq<string>)
  {
    forall k :: 0 <= k < |ids| ==> WellFormedId(prefix, ids[k])
  }

  /** `Math.max(...ids.map(suffix))` */
  function MaxSuffix(prefix: char, ids: seq<string>): (m: nat)
    requires |ids| > 0 && AllWellFormed(prefix, ids)
    ensures forall k :: 0 <= k < |ids| ==> Suffix(prefix, ids[k]) <= m
    ensures exists k :: 0 <= k < |ids| && Suffix(prefix, ids[k]) == m
    decreases |ids|
  {
    if |ids| == 1 then Suffix(prefix, ids[0])
    else
      var m := MaxSuffix(prefix, ids[1..]);
      assert forall k :: 1 <= k < |ids| ==> ids[k] == ids[1..][k - 1];
      if Suffix(prefix, ids[0]) >= m then Suffix(prefix, ids[0]) else m
  }

  /** `setInitialIds`: each counter becomes the largest seed suffix of its
      kind, and is left alone when there are no seeds of that kind. */
  function SetInitialIds(c: Counters, agentIds: seq<string>, taskIds: seq<string>): (r: Counters)
    requires AllWellFormed(AgentPrefix, agentIds) && AllWellFormed(TaskPrefix, taskIds)
    ensures |agentIds| == 0 ==> r.nextAgentId == c.nextAgentId
    ensures |taskIds| == 0 ==> r.nextTaskId == c.nextTaskId
    ensures forall k :: 0 <= k < |agentIds| ==> Suffix(AgentPrefix, agentIds[k]) <= r.nextAgentId
    ensures forall k :: 0 <= k < |taskIds| ==> Suffix(TaskPrefix, taskIds[k]) <= r.nextTaskId
    ensures |agentIds| > 0 ==> exists k :: 0 <= k < |agentIds| && Suffix(AgentPrefix, agentIds[k]) == r.nextAgentId
    ensures |taskIds| > 0 ==> exists k :: 0 <= k < |taskIds| && Suffix(TaskPrefix, taskIds[k]) == r.nextTaskId
  {
    Counters(
      if |agentIds| > 0 then MaxSuffix(AgentPrefix, agentIds) else c.nextAgentId,
      if |taskIds| > 0 then MaxSuffix(TaskPrefix, taskIds) else c.nextTaskId)
  }
}

=== FILE: invariants.dfy ===
/** The consistency of agents and tasks that every tick preserves: an agent
    is busy exactly when it holds a task id; an agent rests exactly while its
    countdown is positive; no two agents hold the same id; a held task is in
    progress and owned; task ids are unique; a completed task shows 100. */
module Invariants {
  import opened Wrappers
  import opened Model
  import opened Waterfall
  import opened Engine

  predicate AgentConsistent(a: Agent)
  {
    && (a.status == Busy <==> a.currentTaskId.Some?)
    && a.restCycles >= 0
    && (a.status == Resting <==> a.restCycles > 0)
    && 0 <= a.tasksCompleted < FatigueThreshold
  }

  predicate TaskConsistent(t: Task)
  {
    t.status == Completed ==> t.progress == CompletedProgress
  }

  /** No id occurs twice. */
  predicate Distinct(ids: seq<string>)
  {
    forall p, q :: 0 <= p < q < |ids| ==> ids[p] != ids[q]
  }

  function TaskIds(ts: seq<Task>): (ids: seq<string>)
    ensures |ids| == |ts|
    ensures forall k :: 0 <= k < |ts| ==> ids[k] == ts[k].id
  {
    seq(|ts|, k requires 0 <= k < |ts| => ts[k].id)
  }

  predicate UniqueTaskIds(ts: seq<Task>)
  {
    Distinct(TaskIds(ts))
  }

  /** No task id is held by two agents. */
  predicate ExclusiveHolds(agents: seq<Agent>)
  {
    forall j, j' :: 0 <= j < j' < |agents| && agents[j].currentTaskId.Some? ==>
      agents[j].currentTaskId != agents[j'].currentTaskId
  }

  /** A task whose id an agent holds is in progress and owned. */
  predicate HeldTasksClaimed(agents: seq<Agent>, ts: seq<Task>)
  {
    forall j, k :: 0 <= j < |agents| && 0 <= k < |ts| && agents[j].currentTaskId == Some(ts[k].id) ==>
      ts[k].status == InProgress && ts[k].assignedTo.Some?
  }

  predicate Consistent(agents: seq<Agent>, ts: seq<Task>)
  {
    && (forall j :: 0 <= j < |agents| ==> AgentConsistent(agents[j]))
    && (forall k :: 0 <= k < |ts| ==> TaskConsistent(ts[k]))
    && UniqueTaskIds(ts)
    && ExclusiveHolds(agents)
    && HeldTasksClaimed(agents, ts)
  }

  // ---------------------------------------------------------------------
  // One agent's turn, at position j of the agent array
  // ---------------------------------------------------------------------

  lemma RestPreserves(agents: seq<Agent>, j: nat, ts: seq<Task>)
    requires j < |agents| && agents[j].status == Resting
    requires Consistent(agents, ts)
    ensures var r := StepAgent(agents[j], ts);
            Consistent(agents[j := r.agent], r.tasks)
  {
  }

  /** Claiming a candidate for a free agent keeps the population consistent:
      nobody held the candidate, since held tasks are in progress and owned
      while candidates are pending or unowned. */
  lemma ClaimPreserves(agents: seq<Agent>, j: nat, ts: seq<Task>, b: Branch, i: nat)
    requires j < |agents| && agents[j].status == Free
    requires i < |ts| && Candidate(b, agents[j], ts[i])
    requires Consistent(agents, ts)
    ensures var a := agents[j];
            Consistent(agents[j := a.(currentTaskId := Some(ts[i].id), status := Busy)],
                       ts[i := Claim(ts[i], b, a.name)])
  {
    var a := agents[j];
    var agents' := agents[j := a.(currentTaskId := Some(ts[i].id), status := Busy)];
    var ts' := ts[i := Claim(ts[i], b, a.name)];
    forall m | 0 <= m < |agents|
      ensures agents[m].currentTaskId != Some(ts[i].id)
    {
    }
    assert UniqueTaskIds(ts');
    assert ExclusiveHolds(agents');
    assert HeldTasksClaimed(agents', ts');
  }

  lemma AcquirePreserves(agents: seq<Agent>, j: nat, ts: seq<Task>)
    requires j < |agents| && agents[j].status == Free
    requires Consistent(agents, ts)
    ensures var r := StepAgent(agents[j], ts);
            Consistent(agents[j := r.agent], r.tasks)
  {
    match Choose(agents[j], ts)
    case None =>
      assert agents[j := agents[j]] == agents;
    case Some(Pick(b, i)) =>
      ClaimPreserves(agents, j, ts, b, i);
  }

  lemma WorkPreserves(agents: seq<Agent>, j: nat, ts: seq<Task>)
    requires j < |agents| && agents[j].status == Busy
    requires Consistent(agents, ts)
    ensures var r := StepAgent(agents[j], ts);
            Consistent(agents[j := r.agent], r.tasks)
  {
    var a := agents[j];
    if HoldsTask(a) {
      match FindTask(ts, a.currentTaskId.value)
      case None =>
      case Some(i) =>
    } else {
      assert agents[j := a] == agents;
    }
  }

  lemma StepPreserves(agents: seq<Agent>, j: nat, ts: seq<Task>)
    requires j < |agents|
    requires Consistent(agents, ts)
    ensures var r := StepAgent(agents[j], ts);
            Consistent(agents[j := r.agent], r.tasks)
  {
    match agents[j].status
    case Resting => RestPreserves(agents, j, ts);
    case Free => AcquirePreserves(agents, j, ts);
    case Busy => WorkPreserves(agents, j, ts);
  }

  // ---------------------------------------------------------------------
  // The whole tick
  // ---------------------------------------------------------------------

  /** Ticking the agents `rest` after `done` have already acted keeps the
      whole population consistent. */
  lemma {:induction false} TickPreservesFrom(done: seq<Agent>, rest: seq<Agent>, ts: seq<Task>)
    requires Consistent(done + rest, ts)
    ensures Consistent(done + Tick(rest, ts).agents, Tick(rest, ts).tasks)
    decreases |rest|
  {
    if rest == [] {
      assert done + rest == done;
      assert done + Tick(rest, ts).agents == done;
    } else {
      var s := StepAgent(rest[0], ts);
      var later := Tick(rest[1..], s.tasks);
      Splice(done, rest, s.agent, later.agents);
      StepPreserves(done + rest, |done|, ts);
      TickPreservesFrom(done + [s.agent], rest[1..], s.tasks);
      assert Tick(rest, ts).agents == [s.agent] + later.agents;
    }
  }

  /** Sequence bookkeeping for moving one agent from `rest` to `done`. */
  lemma Splice(done: seq<Agent>, rest: seq<Agent>, x: Agent, tail: seq<Agent>)
    requires rest != []
    ensures (done + rest)[|done|] == rest[0]
    ensures (done + rest)[|done| := x] == (done + [x]) + rest[1..]
    ensures (done + [x]) + tail == done + ([x] + tail)
  {
  }

  /** A tick preserves consistency; in particular no two agents end it
      holding the same task. */
  lemma TickPreservesConsistency(agents: seq<Agent>, ts: seq<Task>)
    requires Consistent(agents, ts)
    ensures Consistent(Tick(agents, ts).agents, Tick(agents, ts).tasks)
  {
    assert [] + agents == agents;
    TickPreservesFrom([], agents, ts);
    assert [] + Tick(agents, ts).agents == Tick(agents, ts).agents;
  }

  /** Under consistency a completed task is never touched again: no agent
      holds it and no filter admits it. */
  lemma {:induction false} CompletedTasksFrozen(agents: seq<Agent>, ts: seq<Task>)
    requires Consistent(agents, ts)
    ensures forall k :: 0 <= k < |ts| && ts[k].status == Completed ==> Tick(agents, ts).tasks[k] == ts[k]
    decreases |agents|
  {
    if agents != [] {
      var s := StepAgent(agents[0], ts);
      StepPreserves(agents, 0, ts);
      assert agents[0 := s.agent] == [s.agent] + agents[1..];
      ConsistentSuffix([s.agent], agents[1..], s.tasks);
      StepKeepsCompleted(agents, ts);
      CompletedTasksFrozen(agents[1..], s.tasks);
    }
  }

  lemma ConsistentSuffix(xs: seq<Agent>, ys: seq<Agent>, ts: seq<Task>)
    requires Consistent(xs + ys, ts)
    ensures Consistent(ys, ts)
  {
    forall j | 0 <= j < |ys| ensures AgentConsistent(ys[j]) {
      assert ys[j] == (xs + ys)[|xs| + j];
    }
    forall j, j' | 0 <= j < j' < |ys| && ys[j].currentTaskId.Some?
      ensures ys[j].currentTaskId != ys[j'].currentTaskId
    {
      assert ys[j] == (xs + ys)[|xs| + j] && ys[j'] == (xs + ys)[|xs| + j'];
    }
    forall j, k | 0 <= j < |ys| && 0 <= k < |ts| && ys[j].currentTaskId == Some(ts[k].id)
      ensures ts[k].status == InProgress && ts[k].assignedTo.Some?
    {
      assert ys[j] == (xs + ys)[|xs| + j];
    }
  }

  /** The first agent's turn leaves completed tasks as they are. */
  lemma StepKeepsCompleted(agents: seq<Agent>, ts: seq<Task>)
    requires |agents| > 0 && Consistent(agents, ts)
    ensures var r := StepAgent(agents[0], ts);
            forall k :: 0 <= k < |ts| && ts[k].status == Completed ==> r.tasks[k] == ts[k]
  {
    var a := agents[0];
    if a.status == Busy && HoldsTask(a) {
      match FindTask(ts, a.currentTaskId.value)
      case None =>
      case Some(i) =>
        assert ts[i].status == InProgress;
    }
  }

  // ---------------------------------------------------------------------
  // Held ids name existing tasks
  // ---------------------------------------------------------------------

  /** Every id an agent holds is the id of some task. */
  predicate HeldIdsKnown(agents: seq<Agent>, ids: seq<string>)
  {
    forall j :: 0 <= j < |agents| && agents[j].currentTaskId.Some? ==> agents[j].currentTaskId.value in ids
  }

  /** A turn leaves the task ids as they were, and the agent holds nothing,
      what it held, or the id of a task. */
  lemma StepHolds(a: Agent, ts: seq<Task>)
    ensures TaskIds(StepAgent(a, ts).tasks) == TaskIds(ts)
    ensures var held := StepAgent(a, ts).agent.currentTaskId;
            held == None || held == a.currentTaskId || held.value in TaskIds(ts)
  {
    var r := StepAgent(a, ts);
    assert TaskIds(r.tasks) == TaskIds(ts);
    if a.status == Free {
      match Choose(a, ts)
      case None =>
      case Some(Pick(b, i)) =>
        assert TaskIds(ts)[i] == ts[i].id;
    }
  }

  lemma {:induction false} TickHoldsFrom(done: seq<Agent>, rest: seq<Agent>, ts: seq<Task>)
    requires HeldIdsKnown(done + rest, TaskIds(ts))
    ensures TaskIds(Tick(rest, ts).tasks) == TaskIds(ts)
    ensures HeldIdsKnown(done + Tick(rest, ts).agents, TaskIds(ts))
    decreases |rest|
  {
    if rest == [] {
      assert done + rest == done;
      assert done + Tick(rest, ts).agents == done;
    } else {
      var s := StepAgent(rest[0], ts);
      var later := Tick(rest[1..], s.tasks);
      Splice(done, rest, s.agent, later.agents);
      StepHolds(rest[0], ts);
      var all := (done + rest)[|done| := s.agent];
      assert HeldIdsKnown(all, TaskIds(ts)) by {
        forall j | 0 <= j < |all| && all[j].currentTaskId.Some?
          ensures all[j].currentTaskId.value in TaskIds(ts)
        {
          if j != |done| {
            assert all[j] == (done + rest)[j];
          }
        }
      }
      TickHoldsFrom(done + [s.agent], rest[1..], s.tasks);
      assert Tick(rest, ts).agents == [s.agent] + later.agents;
    }
  }

  /** A tick keeps the task ids and never leaves an agent holding an id
      that names no task. */
  lemma TickKeepsHeldIdsKnown(agents: seq<Agent>, ts: seq<Task>)
    requires HeldIdsKnown(agents, TaskIds(ts))
    ensures TaskIds(Tick(agents, ts).tasks) == TaskIds(ts)
    ensures HeldIdsKnown(Tick(agents, ts).agents, TaskIds(ts))
  {
    assert [] + agents == agents;
    TickHoldsFrom([], agents, ts);
    assert [] + Tick(agents, ts).agents == Tick(agents, ts).agents;
  }
}

=== FILE: model.dfy ===
/** The two entities of the multi-agent simulation and the events a tick emits.

    Every field is an unbounded integer or a string; the source keeps them as
    JavaScript numbers, and every value it ever stores in them is a small
    integer, so no wrap-around is modelled. */
module Model {
  import opened Wrappers

  datatype AgentStatus = Free | Busy | Resting

  datatype TaskStatus = Pending | InProgress | Completed

  datatype Priority = Low | Medium | High

  /** An agent: `skills` is the `skill` array, `restCycles` the remaining
      rest countdown, `tasksCompleted` the completions since the last rest. */
  datatype Agent = Agent(
    id: string,
    name: string,
    skills: seq<string>,
    speed: int,
    status: AgentStatus,
    currentTaskId: Option<string>,
    restCycles: int,
    tasksCompleted: int)

  /** A task: `progress` is in work units, `assignedTo` holds an agent NAME. */
  datatype Task = Task(
    id: string,
    name: string,
    skillRequired: string,
    progress: int,
    totalWork: int,
    priority: Priority,
    status: TaskStatus,
    assignedTo: Option<string>)

  /** Rank of a priority in the comparator's `priorityOrder` table. */
  function Rank(p: Priority): (r: int)
    ensures 1 <= r <= 3
    ensures p == High <==> r == 3
    ensures p == Low <==> r == 1
  {
    match p
    case High => 3
    case Medium => 2
    case Low => 1
  }

  /** Completions after which an agent is sent to rest. */
  const FatigueThreshold: int := 3

  /** Ticks an exhausted agent rests. */
  const RestDuration: int := 5

  /** Value progress is overwritten with when a task completes. */
  const CompletedProgress: int := 100

  /** Tasks with more work than this are taken before the skill-sorted pick. */
  const BigTaskWork: int := 150

  /** The skill tag that lets an agent take any pending task. */
  const GeneralistSkill: string := "Fullstack"

  /** The five ways a free agent can acquire a task, in waterfall order. */
  datatype Branch = Rescue | BigTask | Resume | BestMatch | Fallback

  /** The log messages of a tick; the ones about a task carry its name. */
  datatype Message =
    | FinishedResting
    | HelpingNearlyDone(task: string)
    | TookBigTask(task: string)
    | ResumedAbandoned(task: string)
    | TookMatching(task: string)
    | TookAsFullstack(task: string)
    | CompletedTask(task: string)
    | Fatigued

  /** One `logAction(actor, message)` call. */
  datatype Event = Event(actor: string, message: Message)

  /** The message logged when an agent acquires `task` through branch `b`. */
  function AcquireMessage(b: Branch, task: string): (m: Message)
  {
    match b
    case Rescue => HelpingNearlyDone(task)
    case BigTask => TookBigTask(task)
    case Resume => ResumedAbandoned(task)
    case BestMatch => TookMatching(task)
    case Fallback => TookAsFullstack(task)
  }
}

=== FILE: ordering.dfy ===
/** The priority/size comparator of the two sorted acquisition branches, and
    the stable sort the source applies with it.

    The source filters the task array and calls `Array.prototype.sort` on the
    result, which is stable; it then takes element 0. The model sorts the
    candidates' INDICES into the task sequence (so the chosen task can be
    updated in place), with a stable insertion sort, and proves that the head
    of the sorted sequence is the best candidate: highest priority, least
    work among those, and earliest in array order among exact ties. */
module Ordering {
  import opened Model

  /** The comparator: negative exactly when `x` sorts strictly before `y`,
      positive exactly when after, zero on equal priority and size. */
  function Compare(x: Task, y: Task): (c: int)
    ensures c < 0 <==> Precedes(x, y)
    ensures c > 0 <==> Precedes(y, x)
    ensures c == 0 <==> Rank(x.priority) == Rank(y.priority) && x.totalWork == y.totalWork
  {
    if Rank(x.priority) != Rank(y.priority) then Rank(y.priority) - Rank(x.priority)
    else x.totalWork - y.totalWork
  }

  /** `x` sorts strictly before `y`: higher priority, or the same priority and less work. */
  predicate Precedes(x: Task, y: Task)
  {
    || Rank(x.priority) > Rank(y.priority)
    || (Rank(x.priority) == Rank(y.priority) && x.totalWork < y.totalWork)
  }

  predicate ValidIndices(idx: seq<nat>, ts: seq<Task>)
  {
    forall p :: 0 <= p < |idx| ==> idx[p] < |ts|
  }

  /** No element of `s` sorts strictly before an element placed ahead of it. */
  predicate SortedIndices(s: seq<nat>, ts: seq<Task>)
    requires ValidIndices(s, ts)
  {
    forall p, q :: 0 <= p < q < |s| ==> !Precedes(ts[s[q]], ts[s[p]])
  }

  /** Inserts `i` in front of the first element it does not sort strictly
      after; since `i` came earlier in the input than everything in `s`,
      this keeps ties in input order. */
  function Insert(i: nat, s: seq<nat>, ts: seq<Task>): (r: seq<nat>)
    requires i < |ts| && ValidIndices(s, ts)
    requires SortedIndices(s, ts)
    ensures |r| == |s| + 1
    ensures multiset(r) == multiset(s) + multiset{i}
    ensures ValidIndices(r, ts)
    ensures forall p :: 0 <= p < |r| ==> r[p] == i || r[p] in s
    ensures SortedIndices(r, ts)
    decreases |s|
  {
    if s == [] || Compare(ts[i], ts[s[0]]) <= 0 then
      [i] + s
    else
      assert s == [s[0]] + s[1..];
      var r := Insert(i, s[1..], ts);
      assert !Precedes(ts[i], ts[s[0]]);
      [s[0]] + r
  }

  /** Stable sort of candidate indices by the comparator. */
  function SortIndices(idx: seq<nat>, ts: seq<Task>): (r: seq<nat>)
    requires ValidIndices(idx, ts)
    ensures multiset(r) == multiset(idx)
    ensures |r| == |idx|
    ensures ValidIndices(r, ts)
    ensures SortedIndices(r, ts)
    decreases |idx|
  {
    if idx == [] then []
    else
      assert idx == [idx[0]] + idx[1..];
      Insert(idx[0], SortIndices(idx[1..], ts), ts)
  }

  /** Reference definition of the pick: the position in `idx` of the best
      candidate, scanning from the back and letting the earlier element win
      every tie. */
  function BestPos(idx: seq<nat>, ts: seq<Task>): (p: nat)
    requires |idx| > 0 && ValidIndices(idx, ts)
    ensures p < |idx|
    ensures forall q :: 0 <= q < |idx| ==> !Precedes(ts[idx[q]], ts[idx[p]])
    ensures forall q :: 0 <= q < p ==> Precedes(ts[idx[p]], ts[idx[q]])
    decreases |idx|
  {
    if |idx| == 1 then 0
    else
      var p' := BestPos(idx[1..], ts);
      if Compare(ts[idx[0]], ts[idx[1 + p']]) <= 0 then 0 else 1 + p'
  }

  /** The head of the stably sorted candidates is the reference pick. */
  lemma {:induction false} SortedHeadIsBest(idx: seq<nat>, ts: seq<Task>)
    requires |idx| > 0 && ValidIndices(idx, ts)
    ensures |SortIndices(idx, ts)| > 0
    ensures SortIndices(idx, ts)[0] == idx[BestPos(idx, ts)]
    decreases |idx|
  {
    if |idx| > 1 {
      SortedHeadIsBest(idx[1..], ts);
    }
  }
}

=== FILE: scenarios.dfy ===
/** Small concrete runs of the scheduler. */
module Scenarios {
  import opened Wrappers
  import opened Model
  import opened Waterfall
  import opened Engine

  function FreeAgent(name: string, skills: seq<string>, speed: int): (a: Agent)
  {
    Agent("A1", name, skills, speed, Free, None, 0, 0)
  }

  function PendingTask(id: string, skill: string, totalWork: int, priority: Priority): (t: Task)
  {
    Task(id, id, skill, 0, totalWork, priority, Pending, None)
  }

  const Ana: Agent := FreeAgent("Ana", ["Backend"], 10)
  const Ana1: Agent := Ana.(status := Busy, currentTaskId := Some("T1"))
  const Job: Task := PendingTask("T1", "Backend", 25, High)
  const Job1: Task := Job.(status := InProgress, assignedTo := Some("Ana"))

  /** One Backend agent of speed 10 and one pending Backend task of 25
      units: the first tick only claims the task, at progress 0. */
  lemma FirstTickClaims()
    ensures Tick([Ana], [Job]) == TickResult([Ana1], [Job1], [Event("Ana", TookMatching("T1"))])
  {
    assert WaterfallPick(Ana, [Job], Some(Pick(BestMatch, 0)));
    WaterfallDeterminate(Ana, [Job], Some(Pick(BestMatch, 0)), Choose(Ana, [Job]));
  }

  /** The next ticks bring it to 10 and 20; the one after completes it,
      with progress shown as 100 and the owner kept, and frees the agent. */
  lemma LaterTicksWork()
    ensures Tick([Ana1], [Job1]).tasks == [Job1.(progress := 10)]
    ensures Tick([Ana1], [Job1.(progress := 10)]).tasks == [Job1.(progress := 20)]
    ensures Tick([Ana1], [Job1.(progress := 20)]).tasks == [Job1.(progress := 100, status := Completed)]
    ensures Tick([Ana1], [Job1.(progress := 20)]).agents == [Ana.(tasksCompleted := 1)]
  {
    assert FindTask([Job1], "T1") == Some(0);
    assert FindTask([Job1.(progress := 10)], "T1") == Some(0);
    assert FindTask([Job1.(progress := 20)], "T1") == Some(0);
  }

  /** Priority dominates size in the sorted branch: a High task of 150
      units is taken before a Low task of 50. (At 200 units the big-task
      branch, tried earlier, would take it.) */
  lemma PriorityBeforeSize()
    ensures var a := FreeAgent("Bea", ["Frontend"], 5);
      var x := PendingTask("X", "Frontend", 50, Low);
      var y := PendingTask("Y", "Frontend", 150, High);
      Choose(a, [x, y]) == Some(Pick(BestMatch, 1))
  {
    var a := FreeAgent("Bea", ["Frontend"], 5);
    var x := PendingTask("X", "Frontend", 50, Low);
    var y := PendingTask("Y", "Frontend", 150, High);
    assert WaterfallPick(a, [x, y], Some(Pick(BestMatch, 1)));
    WaterfallDeterminate(a, [x, y], Some(Pick(BestMatch, 1)), Choose(a, [x, y]));
  }

  /** An abandoned task at 80 of 100 is rescued ahead of a High pending task. */
  lemma RescueFirst()
    ensures var b := FreeAgent("Carl", ["Data"], 5);
      var t := Task("T", "T", "Data", 80, 100, Low, InProgress, None);
      var u := PendingTask("U", "Data", 10, High);
      Choose(b, [u, t]) == Some(Pick(Rescue, 1))
  {
    var b := FreeAgent("Carl", ["Data"], 5);
    var t := Task("T", "T", "Data", 80, 100, Low, InProgress, None);
    var u := PendingTask("U", "Data", 10, High);
    assert WaterfallPick(b, [u, t], Some(Pick(Rescue, 1)));
    WaterfallDeterminate(b, [u, t], Some(Pick(Rescue, 1)), Choose(b, [u, t]));
  }

  /** A third completion sends the agent to rest for five ticks. */
  lemma ThirdCompletionRests()
    ensures var a := Agent("A1", "Dan", ["Ops"], 10, Busy, Some("T1"), 0, 2);
      var t := Task("T1", "T1", "Ops", 95, 100, Medium, InProgress, Some("Dan"));
      var r := Tick([a], [t]);
      r.agents[0].status == Resting && r.agents[0].restCycles == 5 && r.agents[0].tasksCompleted == 0
  {
  }

  /** A Fullstack agent with no matching task takes the best pending task of
      any skill. */
  lemma FullstackFallback()
    ensures var a := FreeAgent("Eve", ["Fullstack"], 5);
      var x := PendingTask("X", "Backend", 80, Medium);
      var y := PendingTask("Y", "Frontend", 60, Medium);
      Choose(a, [x, y]) == Some(Pick(Fallback, 1))
  {
    var a := FreeAgent("Eve", ["Fullstack"], 5);
    var x := PendingTask("X", "Backend", 80, Medium);
    var y := PendingTask("Y", "Frontend", 60, Medium);
    assert WaterfallPick(a, [x, y], Some(Pick(Fallback, 1)));
    WaterfallDeterminate(a, [x, y], Some(Pick(Fallback, 1)), Choose(a, [x, y]));
  }
}

=== FILE: simulation.dfy ===
/** The simulation state between ticks and the operations on it: loading the
    seed data, resetting to it, adding an agent or a task, and ticking.

    The seed data (the parsed `data.json`) is a parameter; the random draws
    of the add operations are parameters too. */
module Simulation {
  import opened Wrappers
  import opened Model
  import opened Ids
  import opened Engine
  import opened Invariants

  /** A seed agent's `skill` field: a single tag or an array of tags. */
  datatype SkillField = One(skill: string) | Many(skills: seq<string>)

  datatype SeedAgent = SeedAgent(id: string, name: string, skill: SkillField, speed: int)

  datatype SeedTask = SeedTask(
    id: string, name: string, skillRequired: string, progress: int, totalWork: int, priority: Priority)

  datatype Seed = Seed(agents: seq<SeedAgent>, tasks: seq<SeedTask>)

  /** The global state: the seed kept for resets, the population, the counters. */
  datatype Sim = Sim(seed: Seed, agents: seq<Agent>, tasks: seq<Task>, counters: Counters)

  function SeedAgentIds(seed: Seed): (ids: seq<string>)
    ensures |ids| == |seed.agents| && forall j :: 0 <= j < |ids| ==> ids[j] == seed.agents[j].id
  {
    seq(|seed.agents|, j requires 0 <= j < |seed.agents| => seed.agents[j].id)
  }

  function SeedTaskIds(seed: Seed): (ids: seq<string>)
    ensures |ids| == |seed.tasks| && forall k :: 0 <= k < |ids| ==> ids[k] == seed.tasks[k].id
  {
    seq(|seed.tasks|, k requires 0 <= k < |seed.tasks| => seed.tasks[k].id)
  }

  /** Seed ids of the form `A<digits>` and `T<digits>`. */
  predicate SeedIdsWellFormed(seed: Seed)
  {
    AllWellFormed(AgentPrefix, SeedAgentIds(seed)) && AllWellFormed(TaskPrefix, SeedTaskIds(seed))
  }

  // ---------------------------------------------------------------------
  // initSimulation
  // ---------------------------------------------------------------------

  /** `Array.isArray(a.skill) ? a.skill : [a.skill]` */
  function SkillList(f: SkillField): (skills: seq<string>)
    ensures f.One? ==> |skills| == 1 && skills[0] == f.skill
    ensures f.Many? ==> skills == f.skills
  {
    match f
    case One(s) => [s]
    case Many(ss) => ss
  }

  function InitAgent(s: SeedAgent): (a: Agent)
  {
    Agent(s.id, s.name, SkillList(s.skill), s.speed, Free, None, 0, 0)
  }

  function InitTask(s: SeedTask): (t: Task)
  {
    Task(s.id, s.name, s.skillRequired, s.progress, s.totalWork, s.priority, Pending, None)
  }

  /** `initSimulation`: a free, idle agent per seed agent and an unowned
      pending task per seed task, in seed order. */
  function Populate(seed: Seed): (r: (seq<Agent>, seq<Task>))
    ensures |r.0| == |seed.agents| && |r.1| == |seed.tasks|
    ensures forall j :: 0 <= j < |r.0| ==>
      && r.0[j].id == seed.agents[j].id && r.0[j].name == seed.agents[j].name
      && r.0[j].speed == seed.agents[j].speed && r.0[j].skills == SkillList(seed.agents[j].skill)
    ensures forall j :: 0 <= j < |r.0| ==>
      r.0[j].status == Free && r.0[j].currentTaskId == None && r.0[j].restCycles == 0 && r.0[j].tasksCompleted == 0
    ensures forall k :: 0 <= k < |r.1| ==>
      && r.1[k].id == seed.tasks[k].id && r.1[k].name == seed.tasks[k].name
      && r.1[k].skillRequired == seed.tasks[k].skillRequired && r.1[k].progress == seed.tasks[k].progress
      && r.1[k].totalWork == seed.tasks[k].totalWork && r.1[k].priority == seed.tasks[k].priority
    ensures forall k :: 0 <= k < |r.1| ==> r.1[k].status == Pending && r.1[k].assignedTo == None
  {
    (seq(|seed.agents|, j requires 0 <= j < |seed.agents| => InitAgent(seed.agents[j])),
     seq(|seed.tasks|, k requires 0 <= k < |seed.tasks| => InitTask(seed.tasks[k])))
  }

  /** A freshly populated simulation is consistent when the seed's task ids
      are distinct. */
  lemma PopulateConsistent(seed: Seed)
    requires Distinct(SeedTaskIds(seed))
    ensures Consistent(Populate(seed).0, Populate(seed).1)
    ensures HeldIdsKnown(Populate(seed).0, TaskIds(Populate(seed).1))
  {
    var (agents, ts) := Populate(seed);
    assert forall k, k' :: 0 <= k < k' < |ts| ==> ts[k].id == SeedTaskIds(seed)[k] && ts[k'].id == SeedTaskIds(seed)[k'];
  }

  // ---------------------------------------------------------------------
  // Operations
  // ---------------------------------------------------------------------

  /** Loading the seed: `setInitialIds` from zeroed counters, then `initSimulation`. */
  function Load(seed: Seed): (r: Sim)
    requires SeedIdsWellFormed(seed)
    ensures r.seed == seed && (r.agents, r.tasks) == Populate(seed)
    ensures forall j :: 0 <= j < |seed.agents| ==> Suffix(AgentPrefix, seed.agents[j].id) <= r.counters.nextAgentId
    ensures forall k :: 0 <= k < |seed.tasks| ==> Suffix(TaskPrefix, seed.tasks[k].id) <= r.counters.nextTaskId
    ensures |seed.agents| == 0 ==> r.counters.nextAgentId == 0
    ensures |seed.tasks| == 0 ==> r.counters.nextTaskId == 0
    ensures |seed.agents| > 0 ==>
      exists j :: 0 <= j < |seed.agents| && Suffix(AgentPrefix, seed.agents[j].id) == r.counters.nextAgentId
    ensures |seed.tasks| > 0 ==>
      exists k :: 0 <= k < |seed.tasks| && Suffix(TaskPrefix, seed.tasks[k].id) == r.counters.nextTaskId
  {
    var counters := SetInitialIds(Counters(0, 0), SeedAgentIds(seed), SeedTaskIds(seed));
    var (agents, ts) := Populate(seed);
    Sim(seed, agents, ts, counters)
  }

  /** `resetSimulation`: repopulate from the seed; the counters are NOT rewound. */
  function Reset(sim: Sim): (r: Sim)
    ensures r.counters == sim.counters && r.seed == sim.seed
    ensures (r.agents, r.tasks) == Populate(sim.seed)
  {
    var (agents, ts) := Populate(sim.seed);
    Sim(sim.seed, agents, ts, sim.counters)
  }

  /** `addRandomAgent`, with the random name, skills and speed as parameters. */
  function AddAgent(sim: Sim, name: string, skills: seq<string>, speed: int): (r: Sim)
    ensures |r.agents| == |sim.agents| + 1 && r.agents[..|sim.agents|] == sim.agents && r.tasks == sim.tasks
    ensures r.counters.nextAgentId == sim.counters.nextAgentId + 1
    ensures WellFormedId(AgentPrefix, r.agents[|sim.agents|].id)
    ensures Suffix(AgentPrefix, r.agents[|sim.agents|].id) == r.counters.nextAgentId
    ensures r.agents[|sim.agents|].id == FormatId(AgentPrefix, r.counters.nextAgentId)
    ensures r.agents[|sim.agents|] == Agent(r.agents[|sim.agents|].id, name, skills, speed, Free, None, 0, 0)
    ensures r.seed == sim.seed && r.counters.nextTaskId == sim.counters.nextTaskId
  {
    var issued := NextAgentId(sim.counters);
    var agent := Agent(issued.id, name, skills, speed, Free, None, 0, 0);
    assert (sim.agents + [agent])[..|sim.agents|] == sim.agents;
    sim.(agents := sim.agents + [agent], counters := issued.counters)
  }

  /** `addRandomTask`, with the random name, skill, size and priority as
      parameters; a new task starts pending, unowned, at progress 0. */
  function AddTask(sim: Sim, name: string, skillRequired: string, totalWork: int, priority: Priority): (r: Sim)
    ensures |r.tasks| == |sim.tasks| + 1 && r.tasks[..|sim.tasks|] == sim.tasks && r.agents == sim.agents
    ensures r.counters.nextTaskId == sim.counters.nextTaskId + 1
    ensures WellFormedId(TaskPrefix, r.tasks[|sim.tasks|].id)
    ensures Suffix(TaskPrefix, r.tasks[|sim.tasks|].id) == r.counters.nextTaskId
    ensures r.tasks[|sim.tasks|].id == FormatId(TaskPrefix, r.counters.nextTaskId)
    ensures r.tasks[|sim.tasks|] == Task(r.tasks[|sim.tasks|].id, name, skillRequired, 0, totalWork, priority, Pending, None)
    ensures r.seed == sim.seed && r.counters.nextAgentId == sim.counters.nextAgentId
  {
    var issued := NextTaskId(sim.counters);
    var task := Task(issued.id, name, skillRequired, 0, totalWork, priority, Pending, None);
    assert (sim.tasks + [task])[..|sim.tasks|] == sim.tasks;
    sim.(tasks := sim.tasks + [task], counters := issued.counters)
  }

  /** One timer firing: `agentCycle`. */
  function Step(sim: Sim): (r: (Sim, seq<Event>))
    ensures r.0.seed == sim.seed && r.0.counters == sim.counters
    ensures var t := Tick(sim.agents, sim.tasks); r.0.agents == t.agents && r.0.tasks == t.tasks && r.1 == t.events
    ensures AgentIds(r.0.agents) == AgentIds(sim.agents) && TaskIds(r.0.tasks) == TaskIds(sim.tasks)
  {
    var t := Tick(sim.agents, sim.tasks);
    (sim.(agents := t.agents, tasks := t.tasks), t.events)
  }

  // ---------------------------------------------------------------------
  // The state invariant and fresh ids
  // ---------------------------------------------------------------------

  /** Every id in `ids` is well formed and no larger than `counter`. */
  predicate IdsBelow(prefix: char, ids: seq<string>, counter: nat)
  {
    forall p :: 0 <= p < |ids| ==> WellFormedId(prefix, ids[p]) && Suffix(prefix, ids[p]) <= counter
  }

  function AgentIds(agents: seq<Agent>): (ids: seq<string>)
    ensures |ids| == |agents| && forall j :: 0 <= j < |agents| ==> ids[j] == agents[j].id
  {
    seq(|agents|, j requires 0 <= j < |agents| => agents[j].id)
  }

  /** The state every operation keeps: a consistent population whose held
      ids name tasks, with distinct well-formed ids all at or below the
      counters, and a seed whose ids are likewise. */
  predicate Valid(sim: Sim)
  {
    && Distinct(SeedAgentIds(sim.seed)) && Distinct(SeedTaskIds(sim.seed))
    && IdsBelow(AgentPrefix, SeedAgentIds(sim.seed), sim.counters.nextAgentId)
    && IdsBelow(TaskPrefix, SeedTaskIds(sim.seed), sim.counters.nextTaskId)
    && IdsBelow(AgentPrefix, AgentIds(sim.agents), sim.counters.nextAgentId)
    && IdsBelow(TaskPrefix, TaskIds(sim.tasks), sim.counters.nextTaskId)
    && Distinct(AgentIds(sim.agents))
    && Consistent(sim.agents, sim.tasks)
    && HeldIdsKnown(sim.agents, TaskIds(sim.tasks))
  }

  lemma LoadValid(seed: Seed)
    requires SeedIdsWellFormed(seed)
    requires Distinct(SeedAgentIds(seed)) && Distinct(SeedTaskIds(seed))
    ensures Valid(Load(seed))
  {
    var sim := Load(seed);
    PopulateConsistent(seed);
    assert AgentIds(sim.agents) == SeedAgentIds(seed);
    assert TaskIds(sim.tasks) == SeedTaskIds(seed);
  }

  lemma ResetValid(sim: Sim)
    requires Valid(sim)
    ensures Valid(Reset(sim))
  {
    var r := Reset(sim);
    PopulateConsistent(sim.seed);
    assert AgentIds(r.agents) == SeedAgentIds(sim.seed);
    assert TaskIds(r.tasks) == SeedTaskIds(sim.seed);
  }

  /** The issued agent id is fresh: it differs from every id already in the
      population and from every seed id, so later resets cannot clash. */
  lemma {:induction false} AddAgentValid(sim: Sim, name: string, skills: seq<string>, speed: int)
    requires Valid(sim)
    ensures Valid(AddAgent(sim, name, skills, speed))
    ensures var id := AddAgent(sim, name, skills, speed).agents[|sim.agents|].id;
      && (forall j :: 0 <= j < |sim.agents| ==> sim.agents[j].id != id)
      && (forall j :: 0 <= j < |sim.seed.agents| ==> sim.seed.agents[j].id != id)
  {
    var r := AddAgent(sim, name, skills, speed);
    var n := |sim.agents|;
    var id := r.agents[n].id;
    forall j | 0 <= j < n ensures sim.agents[j].id != id {
      assert AgentIds(sim.agents)[j] == sim.agents[j].id;
      DistinctSuffixes(AgentPrefix, sim.agents[j].id, id);
    }
    forall j | 0 <= j < |sim.seed.agents| ensures sim.seed.agents[j].id != id {
      assert SeedAgentIds(sim.seed)[j] == sim.seed.agents[j].id;
      DistinctSuffixes(AgentPrefix, sim.seed.agents[j].id, id);
    }
    assert AgentIds(r.agents) == AgentIds(sim.agents) + [id];
    assert forall j :: 0 <= j < n ==> r.agents[j] == sim.agents[j];
  }

  /** The issued task id is fresh, so task ids stay unique. */
  lemma {:induction false} AddTaskValid(sim: Sim, name: string, skillRequired: string, totalWork: int, priority: Priority)
    requires Valid(sim)
    ensures Valid(AddTask(sim, name, skillRequired, totalWork, priority))
    ensures var id := AddTask(sim, name, skillRequired, totalWork, priority).tasks[|sim.tasks|].id;
      && (forall k :: 0 <= k < |sim.tasks| ==> sim.tasks[k].id != id)
      && (forall k :: 0 <= k < |sim.seed.tasks| ==> sim.seed.tasks[k].id != id)
  {
    var r := AddTask(sim, name, skillRequired, totalWork, priority);
    var n := |sim.tasks|;
    var id := r.tasks[n].id;
    forall k | 0 <= k < n ensures sim.tasks[k].id != id {
      assert TaskIds(sim.tasks)[k] == sim.tasks[k].id;
      DistinctSuffixes(TaskPrefix, sim.tasks[k].id, id);
    }
    forall k | 0 <= k < |sim.seed.tasks| ensures sim.seed.tasks[k].id != id {
      assert SeedTaskIds(sim.seed)[k] == sim.seed.tasks[k].id;
      DistinctSuffixes(TaskPrefix, sim.seed.tasks[k].id, id);
    }
    assert TaskIds(r.tasks) == TaskIds(sim.tasks) + [id];
    assert forall k :: 0 <= k < n ==> r.tasks[k] == sim.tasks[k];
    assert id !in TaskIds(sim.tasks);
  }

  lemma StepValid(sim: Sim)
    requires Valid(sim)
    ensures Valid(Step(sim).0)
  {
    var t := Tick(sim.agents, sim.tasks);
    TickPreservesConsistency(sim.agents, sim.tasks);
    TickKeepsHeldIdsKnown(sim.agents, sim.tasks);
    assert AgentIds(t.agents) == AgentIds(sim.agents);
  }
}

=== FILE: steps.dfy ===
/** What one agent's turn does, branch by branch, stated against the
    waterfall specification and the task array rather than the searches. */
module Steps {
  import opened Wrappers
  import opened Model
  import opened Waterfall
  import opened Engine

  /** A resting agent counts down by one and is free once the count is no
      longer positive; it touches no task. */
  lemma RestingStep(a: Agent, ts: seq<Task>)
    requires a.status == Resting
    ensures var r := StepAgent(a, ts);
      && r.tasks == ts
      && r.agent.restCycles == a.restCycles - 1
      && (r.agent.status == Free <==> a.restCycles <= 1)
      && (r.agent.status != Free ==> r.agent.status == Resting)
      && r.agent.currentTaskId == a.currentTaskId
      && r.agent.tasksCompleted == a.tasksCompleted
      && (r.events == [] <==> r.agent.status == Resting)
  {
  }

  /** A free agent takes the task the waterfall specification designates, or
      changes nothing when it designates none. The taken task is owned by the
      agent, in progress, with its progress untouched; no other task changes;
      and the task has left every candidate filter, for every agent. */
  lemma {:induction false} AcquisitionEffect(a: Agent, ts: seq<Task>, p: Option<Pick>)
    requires a.status == Free
    requires WaterfallPick(a, ts, p)
    ensures p.None? ==> StepAgent(a, ts) == StepResult(a, ts, [])
    ensures p.Some? ==>
      var i := p.value.index;
      var r := StepAgent(a, ts);
      && i < |ts| && |r.tasks| == |ts|
      && r.agent == a.(status := Busy, currentTaskId := Some(ts[i].id))
      && r.tasks[i].assignedTo == Some(a.name)
      && r.tasks[i].status == InProgress
      && r.tasks[i].progress == ts[i].progress
      && (forall k :: 0 <= k < |ts| && k != i ==> r.tasks[k] == ts[k])
      && (forall b: Branch, other: Agent :: !Candidate(b, other, r.tasks[i]))
      && r.events == [Event(a.name, AcquireMessage(p.value.branch, ts[i].name))]
  {
    WaterfallDeterminate(a, ts, p, Choose(a, ts));
  }

  /** A busy agent holding the id of task `i` (the first task with that id)
      adds its speed to the task's progress. Reaching `totalWork` completes
      the task with progress overwritten to 100 and its owner left in place,
      frees the agent and counts the completion — or, on the third, sends
      the agent to rest for five ticks with the count reset. */
  lemma {:induction false} WorkOnTask(a: Agent, ts: seq<Task>, i: nat)
    requires a.status == Busy
    requires i < |ts| && a.currentTaskId == Some(ts[i].id) && ts[i].id != ""
    requires forall k :: 0 <= k < i ==> ts[k].id != ts[i].id
    ensures var r := StepAgent(a, ts);
      var t := ts[i];
      var progress := t.progress + a.speed;
      && |r.tasks| == |ts|
      && (forall k :: 0 <= k < |ts| && k != i ==> r.tasks[k] == ts[k])
      && r.tasks[i].assignedTo == t.assignedTo
      && (progress < t.totalWork ==>
            r.agent == a && r.tasks[i] == t.(progress := progress) && r.events == [])
      && (progress >= t.totalWork ==>
            && r.tasks[i] == t.(progress := CompletedProgress, status := Completed)
            && r.agent.currentTaskId == None
            && r.events[0] == Event(a.name, CompletedTask(t.name)))
      && (progress >= t.totalWork && a.tasksCompleted + 1 < FatigueThreshold ==>
            r.agent == a.(status := Free, currentTaskId := None, tasksCompleted := a.tasksCompleted + 1)
            && r.events == [Event(a.name, CompletedTask(t.name))])
      && (progress >= t.totalWork && a.tasksCompleted + 1 >= FatigueThreshold ==>
            r.agent == a.(status := Resting, currentTaskId := None, restCycles := RestDuration, tasksCompleted := 0)
            && r.events == [Event(a.name, CompletedTask(t.name)), Event(a.name, Fatigued)])
  {
    assert FindTask(ts, ts[i].id) == Some(i);
  }

  /** A busy agent whose id matches no task is freed and nothing else changes. */
  lemma DanglingReference(a: Agent, ts: seq<Task>)
    requires a.status == Busy && HoldsTask(a)
    requires forall k :: 0 <= k < |ts| ==> Some(ts[k].id) != a.currentTaskId
    ensures StepAgent(a, ts) == StepResult(a.(status := Free, currentTaskId := None), ts, [])
  {
  }

  /** A busy agent with no (or an empty) task id is left as it is. */
  lemma IdleBusy(a: Agent, ts: seq<Task>)
    requires a.status == Busy && !HoldsTask(a)
    ensures StepAgent(a, ts) == StepResult(a, ts, [])
  {
  }
}

=== FILE: waterfall.dfy ===
/** How a free agent picks a task: five candidate filters tried in order, the
    first non-empty one supplying the task. Filters 1-3 take the first match
    in array order; filters 4-5 take the head of the comparator sort. */
module Waterfall {
  import opened Wrappers
  import opened Model
  import opened Ordering

  /** `agent.skill.includes(t.skillRequired)` */
  predicate SkillMatch(a: Agent, t: Task)
  {
    t.skillRequired in a.skills
  }

  /** In progress but owned by nobody. */
  predicate Abandoned(t: Task)
  {
    t.status == InProgress && t.assignedTo == None
  }

  /** `t.progress >= t.totalWork * 0.75`, exact on integers. */
  predicate NearlyDone(t: Task)
  {
    4 * t.progress >= 3 * t.totalWork
  }

  /** Membership of `t` in the candidate filter of branch `b` for agent `a`. */
  predicate Candidate(b: Branch, a: Agent, t: Task): (c: bool)
    ensures c ==> t.status != Completed
    ensures c && b != Fallback ==> SkillMatch(a, t)
    ensures c && (b == Rescue || b == Resume) ==> Abandoned(t)
    ensures c && (b == BigTask || b == BestMatch || b == Fallback) ==> t.status == Pending
    ensures c && b == Rescue ==> 4 * t.progress >= 3 * t.totalWork
    ensures c && b == BigTask ==> t.totalWork > 150
  {
    match b
    case Rescue => Abandoned(t) && NearlyDone(t) && SkillMatch(a, t)
    case BigTask => t.status == Pending && t.totalWork > BigTaskWork && SkillMatch(a, t)
    case Resume => Abandoned(t) && SkillMatch(a, t)
    case BestMatch => t.status == Pending && SkillMatch(a, t)
    case Fallback => t.status == Pending
  }

  /** Only an agent with the generalist skill tries the last branch. */
  predicate Enabled(b: Branch, a: Agent)
  {
    b == Fallback ==> GeneralistSkill in a.skills
  }

  /** The branches that sort their candidates rather than take the first. */
  predicate SortsCandidates(b: Branch)
  {
    b == BestMatch || b == Fallback
  }

  /** Position of a branch in the waterfall. */
  function Order(b: Branch): (n: nat)
  {
    match b
    case Rescue => 0
    case BigTask => 1
    case Resume => 2
    case BestMatch => 3
    case Fallback => 4
  }

  // ---------------------------------------------------------------------
  // Specification of the pick
  // ---------------------------------------------------------------------

  /** Branch `b` is tried by `a` and its filter is non-empty. */
  ghost predicate Yields(b: Branch, a: Agent, ts: seq<Task>)
  {
    Enabled(b, a) && exists k :: 0 <= k < |ts| && Candidate(b, a, ts[k])
  }

  /** `i` is the first candidate of `b` in array order. */
  ghost predicate IsFirst(b: Branch, a: Agent, ts: seq<Task>, i: nat)
  {
    && i < |ts|
    && Candidate(b, a, ts[i])
    && forall k :: 0 <= k < i ==> !Candidate(b, a, ts[k])
  }

  /** `i` is a candidate of `b` that no candidate sorts strictly before, and
      that sorts strictly before every earlier candidate. */
  ghost predicate IsBest(b: Branch, a: Agent, ts: seq<Task>, i: nat)
  {
    && i < |ts|
    && Candidate(b, a, ts[i])
    && (forall k :: 0 <= k < |ts| && Candidate(b, a, ts[k]) ==> !Precedes(ts[k], ts[i]))
    && (forall k :: 0 <= k < i && Candidate(b, a, ts[k]) ==> Precedes(ts[i], ts[k]))
  }

  datatype Pick = Pick(branch: Branch, index: nat)

  /** The waterfall: no pick exactly when no branch yields; otherwise the pick
      comes from the first branch that yields, chosen within it by array
      order or by the comparator. */
  ghost predicate WaterfallPick(a: Agent, ts: seq<Task>, r: Option<Pick>)
  {
    match r
    case None => forall b :: !Yields(b, a, ts)
    case Some(Pick(b, i)) =>
      && Enabled(b, a)
      && (if SortsCandidates(b) then IsBest(b, a, ts, i) else IsFirst(b, a, ts, i))
      && forall b' :: Order(b') < Order(b) ==> !Yields(b', a, ts)
  }

  // ---------------------------------------------------------------------
  // The searches the source performs
  // ---------------------------------------------------------------------

  /** `tasks.filter(...)[0]`, as an index: the first candidate at or after `from`. */
  function FirstCandidate(b: Branch, a: Agent, ts: seq<Task>, from: nat): (r: Option<nat>)
    requires from <= |ts|
    ensures r.Some? ==> from <= r.value < |ts| && Candidate(b, a, ts[r.value])
    ensures r.Some? ==> forall k :: from <= k < r.value ==> !Candidate(b, a, ts[k])
    ensures r.None? <==> forall k :: from <= k < |ts| ==> !Candidate(b, a, ts[k])
    decreases |ts| - from
  {
    if from == |ts| then None
    else if Candidate(b, a, ts[from]) then Some(from)
    else FirstCandidate(b, a, ts, from + 1)
  }

  /** `tasks.filter(...)`, as the increasing sequence of candidate indices at or after `from`. */
  function CandidateIndices(b: Branch, a: Agent, ts: seq<Task>, from: nat): (r: seq<nat>)
    requires from <= |ts|
    ensures ValidIndices(r, ts)
    ensures forall p :: 0 <= p < |r| ==> from <= r[p] && Candidate(b, a, ts[r[p]])
    ensures forall p, q :: 0 <= p < q < |r| ==> r[p] < r[q]
    ensures forall k :: from <= k < |ts| && Candidate(b, a, ts[k]) ==> k in r
    decreases |ts| - from
  {
    if from == |ts| then []
    else
      var rest := CandidateIndices(b, a, ts, from + 1);
      if Candidate(b, a, ts[from]) then [from] + rest else rest
  }

  /** In a strictly increasing index sequence, positions follow index order. */
  lemma PositionOrder(idx: seq<nat>, p: nat, q: nat)
    requires p < |idx| && q < |idx|
    requires forall x, y :: 0 <= x < y < |idx| ==> idx[x] < idx[y]
    requires idx[q] < idx[p]
    ensures q < p
  {
  }

  /** A position optimal among the candidate indices is an optimal candidate task. */
  lemma BestAmong(b: Branch, a: Agent, ts: seq<Task>, idx: seq<nat>, p: nat)
    requires ValidIndices(idx, ts) && p < |idx|
    requires forall x, y :: 0 <= x < y < |idx| ==> idx[x] < idx[y]
    requires forall x :: 0 <= x < |idx| ==> Candidate(b, a, ts[idx[x]])
    requires forall k :: 0 <= k < |ts| && Candidate(b, a, ts[k]) ==> k in idx
    requires forall q :: 0 <= q < |idx| ==> !Precedes(ts[idx[q]], ts[idx[p]])
    requires forall q :: 0 <= q < p ==> Precedes(ts[idx[p]], ts[idx[q]])
    ensures IsBest(b, a, ts, idx[p])
  {
    var i := idx[p];
    forall k | 0 <= k < |ts| && Candidate(b, a, ts[k])
      ensures !Precedes(ts[k], ts[i])
      ensures k < i ==> Precedes(ts[i], ts[k])
    {
      var q :| 0 <= q < |idx| && idx[q] == k;
      if k < i {
        PositionOrder(idx, p, q);
      }
    }
  }

  /** Translates the position-level optimality of `BestPos` to task indices. */
  lemma BestPosIsBest(b: Branch, a: Agent, ts: seq<Task>)
    requires |CandidateIndices(b, a, ts, 0)| > 0
    ensures IsBest(b, a, ts, CandidateIndices(b, a, ts, 0)[BestPos(CandidateIndices(b, a, ts, 0), ts)])
  {
    var idx := CandidateIndices(b, a, ts, 0);
    BestAmong(b, a, ts, idx, BestPos(idx, ts));
  }

  /** Filter, stable sort, take element 0 — the two sorted branches. */
  function BestCandidate(b: Branch, a: Agent, ts: seq<Task>): (r: Option<nat>)
    ensures r.Some? ==> IsBest(b, a, ts, r.value)
    ensures r.None? <==> forall k :: 0 <= k < |ts| ==> !Candidate(b, a, ts[k])
  {
    var idx := CandidateIndices(b, a, ts, 0);
    var sorted := SortIndices(idx, ts);
    if |sorted| == 0 then
      None
    else
      SortedHeadIsBest(idx, ts);
      BestPosIsBest(b, a, ts);
      Some(sorted[0])
  }

  /** One step of the waterfall: the pick branch `b` makes, if it is tried. */
  function TryBranch(b: Branch, a: Agent, ts: seq<Task>): (r: Option<nat>)
    ensures r.None? <==> !Yields(b, a, ts)
    ensures r.Some? ==> Enabled(b, a)
    ensures r.Some? ==> if SortsCandidates(b) then IsBest(b, a, ts, r.value) else IsFirst(b, a, ts, r.value)
  {
    if !Enabled(b, a) then None
    else if SortsCandidates(b) then BestCandidate(b, a, ts)
    else FirstCandidate(b, a, ts, 0)
  }

  /** The acquisition waterfall of a free agent. */
  function Choose(a: Agent, ts: seq<Task>): (r: Option<Pick>)
    ensures WaterfallPick(a, ts, r)
  {
    match TryBranch(Rescue, a, ts)
    case Some(i) => Some(Pick(Rescue, i))
    case None =>
      match TryBranch(BigTask, a, ts)
      case Some(i) => Some(Pick(BigTask, i))
      case None =>
        match TryBranch(Resume, a, ts)
        case Some(i) => Some(Pick(Resume, i))
        case None =>
          match TryBranch(BestMatch, a, ts)
          case Some(i) => Some(Pick(BestMatch, i))
          case None =>
            match TryBranch(Fallback, a, ts)
            case Some(i) => Some(Pick(Fallback, i))
            case None => None
  }

  /** A pick's branch is one that yields: it is tried and its filter is non-empty. */
  lemma PickYields(a: Agent, ts: seq<Task>, r: Option<Pick>)
    requires WaterfallPick(a, ts, r)
    ensures r.Some? ==> Yields(r.value.branch, a, ts)
  {
    if r.Some? {
      assert Candidate(r.value.branch, a, ts[r.value.index]);
    }
  }

  /** The waterfall specification admits exactly one pick, so `Choose` is
      fully characterised by it. */
  lemma {:induction false} WaterfallDeterminate(a: Agent, ts: seq<Task>, r1: Option<Pick>, r2: Option<Pick>)
    requires WaterfallPick(a, ts, r1) && WaterfallPick(a, ts, r2)
    ensures r1 == r2
  {
    PickYields(a, ts, r1);
    PickYields(a, ts, r2);
  }
}

=== FILE: wrappers.dfy ===
/** The nullable references of the simulation (`currentTaskId`, `assignedTo`)
    and the "no match" results of the array searches are modelled as Option. */
module Wrappers {

  datatype Option<+T> = None | Some(value: T)
}
